=== FILE: README.md ===
# Boids in Dafny

A model of the core of the `boids.ts` flocking simulation:

- the `vec3` value algebra;
- the `Boid` record (position, velocity, perch flag);
- the `BoidBehavior` logic that owns the boid list:
  - resizing the flock (`InitBoids`);
  - drawing random velocities;
  - the per-frame update. For every boid in list order it runs Separation, Cohesion, Alignment, LimitSpeed, LimitWithinScreen, RandomPerch and UpdatePosition.

Everything is over Dafny `real`, and every rule is a pure function from the boid (or the flock and an index) to the updated boid.

Modules, in dependency order:

| file | module | contents |
|---|---|---|
| `arith.dfy` | `RealArith` | small facts about real products and quotients used by the proofs |
| `vec3.dfy` | `Vectors` | `Vec3` and its operations; `Zero` |
| `boid.dfy` | `Boids` | `Boid`, the screen size (`World`), the tunable `Settings`, `Margin` and `TurnFactor` |
| `neighbours.dfy` | `Neighbours` | the neighbour scan shared by the three steering rules, as a fold over indices |
| `steering.dfy` | `Steering` | `RandomVelocity` and the seven per-boid rules |
| `population.dfy` | `Population` | `InitBoids` as written, and the corrected `Resize` |
| `update.dfy` | `Update` | one boid's pass through all rules, and the frame as a left-to-right fold |

Modelling choices:

- **Random draws.** Each `Math.random()` result is an explicit parameter `r` with `0 <= r < 1` (`IsUnitDraw`).
  - `SpawnDraws` holds the draws of one new boid: x and y position, then x and y velocity.
  - `PerchDraws` holds the draws of one boid per frame: the perch decision, then a take-off velocity.
  - Draws a call does not consume are ignored.
- **Screen size.** The global `ScreenWidth`/`ScreenHeight` become a `World` argument.
- **No square roots.** `Distance` and `Magnitude` use `Math.sqrt`.
  - The neighbour tests already compare squared distances.
  - LimitSpeed's test `Magnitude() / SpeedLimit > 1` is modelled as `ExceedsSpeed`: `limit > 0 && |v|² > limit²`.
  - `OverSpeedRatio` proves the two agree for every magnitude `m >= 0` with `m² = |v|²` and every non-zero limit.
- **Per-boid pass.** The source mutates each boid in place.
  - The model builds a new flock in which only element `i` changes at step `i` (`Update.Fold`, instantiated with `StepBoid`).
  - Position integration runs inside the per-boid loop (boids.ts:151). A later boid therefore sees the new velocity, the new position and the new perch flag of every earlier boid.
- **Reference equality in RandomPerch.** `boid.Velocity == vec3.Zero` (boids.ts:270) compares object identity with the shared singleton.
  - Separation always stores a freshly built vector.
  - Within one pass, only LimitSpeed stores the singleton again, when the boid is perching or the speed limit is 0.
  - After that, LimitWithinScreen changes it by `0 * TurnFactor` at most.
  - So `StepBoid` passes RandomPerch the flag `velocityIsSharedZero = IsPerching || speedLimit == 0`.
  - As a result, a flying boid in the ground band whose computed velocity happens to equal (0, 0, 0) does not get a take-off velocity. A value-equality reading would give it one. The model follows the code.

## Model

| member | source | states |
|---|---|---|
| `Vectors.Vec3.Add` | boids.ts:22-24 | vector addition is undone by subtracting the same vector |
| `Vectors.Vec3.AddScalar` | boids.ts:25-26 | adding a number is adding the vector with that number in every component |
| `Vectors.Vec3.Subtract` | boids.ts:30-32 | the difference plus the subtrahend gives back the minuend, per component |
| `Vectors.Vec3.SubtractScalar` | boids.ts:34-35 | subtracting a number is subtracting the vector with that number in every component |
| `Vectors.Vec3.Dot` | boids.ts:39-41 | the dot product of a vector with itself is never negative, and it is zero when either operand is the zero vector; `DotSymmetric`, `DotAdd`, `TimesDot` and `DotPolarization` pin it down completely |
| `Vectors.Vec3.Cross` | boids.ts:43-45 | the cross product is orthogonal to both operands; `CrossLagrange` fixes its length and `CrossOrientation` its handedness |
| `Vectors.Vec3.Times` | boids.ts:47-49 | scaling by 0 gives the zero vector, scaling by 1 the vector itself; `TimesDot` fixes every component, sign included |
| `Vectors.Vec3.SquareDistance` | boids.ts:51-53 | the squared distance is non-negative and equals the squared magnitude of the difference |
| `Vectors.Vec3.SquareMagnitude` | boids.ts:59-61 | the squared magnitude is non-negative and equals the dot product with itself |
| `Vectors.SquareDistanceSymmetric` | boids.ts:51-53 | the squared distance from a to b equals the one from b to a |
| `Vectors.DotSymmetric` | boids.ts:39-41 | the dot product is symmetric |
| `Vectors.TimesScalesSquareMagnitude` | boids.ts:47-61 | scaling by k multiplies the squared magnitude by k² |
| `Vectors.TimesShrinksSquareMagnitude` | boids.ts:47-61 | scaling by a factor in [-1, 1] never increases the squared magnitude |
| `Vectors.TimesDistributes` | boids.ts:22-49 | scaling distributes over vector addition |
| `Vectors.TimesDot` | boids.ts:39-49 | scaling one operand by k, negative k included, scales the dot product by k |
| `Vectors.DotAdd` | boids.ts:22-41 | the dot product distributes over vector addition |
| `Vectors.DotPolarization` | boids.ts:39-61 | twice a · b equals \|a + b\|² − \|a\|² − \|b\|², so the squared magnitudes determine the dot product |
| `Vectors.ZeroIsAdditiveIdentity` | boids.ts:14-24 | adding the shared zero vector, on either side, changes nothing |
| `Vectors.CrossLagrange` | boids.ts:43-45 | Lagrange's identity: the squared length of a × b is ‖a‖²·‖b‖² − (a·b)², so together with orthogonality the cross product is fixed up to sign |
| `Vectors.CrossOrientation` | boids.ts:43-45 | the product is right-handed: (1, 0, 0) × (0, 1, 0) = (0, 0, 1), which fixes the sign |
| `Neighbours.NeighbourCount` | boids.ts:198-205 | the count is at most the number of boids scanned, and it is 0 exactly when none of them is a neighbour |
| `Neighbours.NeighbourSum` | boids.ts:180-187 | with no neighbour the sum is the zero vector it starts from; `RemoveNeighbourScan` fixes it for any number of neighbours |
| `Neighbours.NeighbourCountIsSetSize` | boids.ts:198-205 | the count equals the size of the reference set of other, non-perching boids within the squared threshold |
| `Neighbours.ScanDependsOnlyOnNeighbours` | boids.ts:180-187 | two flocks with the same neighbours and the same neighbour values give the same count and sum |
| `Neighbours.PerchingBoidIsIgnored` | boids.ts:181 | swapping one perching boid for another perching boid changes neither count nor sum |
| `Neighbours.SoleNeighbourScan` | boids.ts:180-187 | with exactly one neighbour j, the count is 1 and the sum is j's term |
| `Neighbours.RemoveNeighbourScan` | boids.ts:180-205 | for every flock, taking one neighbour out of the scan lowers the count by exactly one and removes exactly that neighbour's term from the sum: each neighbour is added once, whatever the others are |
| `Steering.SymmetricDraw` | boids.ts:132 | for a draw r in [0, 1), `(1 - 2r) * limit` lies in [-limit, limit] for a non-negative limit and in (-limit, limit] for a positive limit |
| `Steering.UpwardDraw` | boids.ts:134 | for a draw r in [0, 1), `-r * limit` lies in [-limit, 0] for a non-negative limit and in (-limit, 0] for a positive limit |
| `Steering.RandomVelocity` | boids.ts:130-140 | z is 0; for a non-negative limit, x and y lie in [-limit, limit], y in [-limit, 0] when yNegative; for a positive limit, the lower bounds are strict |
| `Steering.SymmetricDrawCovers` | boids.ts:132 | for a positive limit, every value in (-limit, limit] is produced by some draw |
| `Steering.UpwardDrawCovers` | boids.ts:134 | for a positive limit, every value in (-limit, 0] is produced by some draw |
| `Steering.RandomVelocityCoversRange` | boids.ts:130-140 | every velocity in the promised ranges is produced by some pair of draws, so the bounds are tight |
| `Steering.Separation` | boids.ts:176-192 | position and perch flag unchanged; with no neighbour in range, or a zero factor, the boid is unchanged |
| `Steering.SeparationNeighbourContribution` | boids.ts:176-192 | each neighbour in range adds its own (p − pj) × factor to the velocity whatever the other neighbours are, so the sum is not averaged (the averaging at boids.ts:188-189 is commented out) |
| `Steering.SeparationTwoNeighbours` | boids.ts:176-192 | with exactly two neighbours j and k, the velocity gains ((p − pj) + (p − pk)) × factor, the full sum rather than half of it |
| `Steering.AveragePull` | boids.ts:207-211 | the averaged pull `((sum / n) - p) * f`, times n, is `(sum - n p) * f` |
| `Steering.Cohesion` | boids.ts:194-212 | position and perch flag unchanged; with no neighbour, unchanged; otherwise n × (velocity change) = (sum of neighbour positions − n × position) × factor |
| `Steering.Alignment` | boids.ts:215-233 | position and perch flag unchanged; with no neighbour, unchanged; otherwise n × (velocity change) = (sum of neighbour velocities − n × velocity) × factor |
| `Steering.SteeringIgnoresPerchingBoids` | boids.ts:176-233 | none of the three steering rules depends on a perching boid other than the one being updated |
| `Steering.SoleNeighbourSteering` | boids.ts:176-233 | with a single neighbour j: Separation adds (p − pj) × factor; Cohesion adds (pj − p) × factor; Alignment adds (vj − v) × factor |
| `Steering.OverSpeedRatio` | boids.ts:240-241 | `Magnitude() / SpeedLimit > 1` holds exactly when the limit is positive and the squared speed exceeds its square |
| `Steering.LimitSpeed` | boids.ts:235-244 | perching or a zero limit gives zero velocity; otherwise the velocity is scaled by the convergence factor exactly when it exceeds the limit, and otherwise the boid is unchanged; the speed never grows for a factor in [-1, 1] |
| `Steering.LimitSpeedDampsRatherThanClamps` | boids.ts:240-242 | speed 400, limit 300, factor 0.4 gives speed 160, not 300 |
| `Steering.EdgeNudge` | boids.ts:248-258 | a positive turn points back inwards: negative exactly in the far band, positive exactly in the near band (outside the far one), zero in between |
| `Steering.LimitWithinScreen` | boids.ts:246-259 | a perching boid is unchanged; otherwise x and y velocities each get their own edge nudge of ±limit × TurnFactor, while z velocity, position and perch flag are unchanged |
| `Steering.LimitWithinScreenCorner` | boids.ts:246-259 | a boid at rest at (100, 100), limit 300, on a 1000 × 1000 screen gets velocity (225, 225, 0) |
| `Steering.RandomPerch` | boids.ts:261-272 | a flying boid above the ground band is untouched; otherwise it perches exactly when the draw is at most 0.9 (already perching) or 0.5; perching implies zero velocity; a take-off from the shared zero vector gets an upward random velocity; the velocity is otherwise kept; the position never changes |
| `Steering.UpdatePosition` | boids.ts:274-277 | position moves by velocity × dt/1000; velocity and perch flag unchanged |
| `Steering.UpdatePositionOneSecond` | boids.ts:275 | 1000 ms at (100, 0, 0) from the origin ends at (100, 0, 0) |
| `Population.SpawnCoordinate` | boids.ts:118-119 | the spawned coordinate lies in [Margin, extent − Margin) when the extent exceeds both margins |
| `Population.SpawnCoordinateCovers` | boids.ts:118-119 | conversely, every point of [Margin, extent − Margin) is the spawn coordinate of the draw (c − Margin) / (extent − 2·Margin), which is a valid draw |
| `Population.SpawnBoid` | boids.ts:116-122 | a new boid is flying, has z = 0, lies inside the margins, takes its x and y from `SpawnCoordinate` of its own x and y draws and the screen width and height, and has the random velocity of its velocity draws |
| `Population.Grow` | boids.ts:114-123 | growing reaches exactly the target length, keeps the old prefix and appends one spawned boid per draw |
| `Population.PopTimes` | boids.ts:125-126 | k pops keep the prefix of length \|s\| − k, or nothing |
| `Population.InitBoids` | boids.ts:112-128 | growing gives exactly boidNum boids with the old prefix kept; equal size is a no-op; shrinking keeps the prefix of length max(boidNum − 1, 0) |
| `Population.InitBoidsSpawnsInsideMargins` | boids.ts:114-123 | every added boid is flying, has z = 0 and lies inside the margins |
| `Population.InitBoidsShrinkOffByOne` | boids.ts:124-127 | three boids resized to two leave one |
| `Population.InitBoidsRepeatedShrinkRespawns` | boids.ts:112-127 | shrinking twice to the same size is not idempotent: the second call spawns a boid back |
| `Population.Resize` | boids.ts:112-128 | the intended resize: exactly max(boidNum, 0) boids, a prefix when shrinking, old prefix plus spawned boids when growing |
| `Population.ResizeIdempotent` | boids.ts:112-128 | resizing to the same size twice equals resizing once |
| `Update.StepBoid` | boids.ts:143-152 | after one boid's pass: perching implies zero velocity; a flier above the ground band is still flying; the position moved by the final velocity × dt/1000 |
| `Update.Fold` | boids.ts:142-153 | rewriting the first n entries in order keeps the length and leaves every entry from n on untouched |
| `Update.FoldStepsAgainstUpdatedPrefix` | boids.ts:142-153 | entry k of the fold after n > k rewrites is the step applied to the list in which exactly entries 0 .. k−1 have been rewritten; later rewrites leave it alone |
| `Update.AdvanceStepsAgainstUpdatedPrefix` | boids.ts:142-153 | in a frame, boid k ends as `StepBoid` applied to the flock in which boids 0 .. k−1 already hold their new state and boids k .. hold their old one (the in-place reading order of the `for … of` loop, not a double-buffered one) |
| `Update.Advance` | boids.ts:142-153 | after n steps the length is kept, boids from n on are untouched, and every boid before n has zero velocity if perching, is still flying if it was flying above the ground band, and has moved by its final velocity × dt/1000 |
| `Update.UpdateBoids` | boids.ts:142-153 | after a frame, the length is unchanged, every perching boid has zero velocity, no flier above the ground band has started perching, and every boid has moved by its final velocity × dt/1000 |

## Left out

- `Draw` (boids.ts:155-174): canvas rendering and `atan2`.
- `MainAPP`, `SliderInput`, the resize handler and the `window.onload`/`FixedUpdate` loop (boids.ts:280-394) are DOM wiring and frame scheduling.
  - The slider handler's `case "SpeedConvergenceFactor"` (boids.ts:360) never matches the id `"speedConvergenceFactor"` registered at boids.ts:309, so that slider has no effect. This belongs to the wiring and is not modelled.
- `Distance` and `Magnitude` (boids.ts:55-65) are replaced by squared forms, since the reals have no square root. IEEE-754 rounding, NaN, infinities and −0 are not modelled.
- `Math.random()` itself: its results are parameters.
- `FarClippingPlane`, `Clamp`, `HalfSizeX`/`HalfSizeY` and the commented-out z-axis code are unused by the core.
- Vectors.Vec3.Add: the fallback for an operand that is neither a `vec3` nor a number (boids.ts:27, 36) has no counterpart. The model types the operand, and the scalar forms are `AddScalar`/`SubtractScalar`.
- Steering.RandomVelocity: the strict lower bound `-limit < x` is stated only for a positive limit. For a zero limit every component is 0, which equals `-limit`.
- Steering.RandomPerch: the identity test is an argument (`velocityIsSharedZero`), not a comparison of objects. `Update.StepBoid` computes it as explained above.
- Update.UpdateBoids: the result is defined as the fold `Advance`. Its contract states what the frame keeps (length, rest when perching, no new perchers above the band, position moved by the final velocity). Which flock each boid is stepped against is stated by `Update.AdvanceStepsAgainstUpdatedPrefix`. No contract gives a boid's final velocity in closed form over the whole flock: it is `StepBoid` of that intermediate flock, whose individual rules carry their own contracts.
- Settings.boidNum: the target population is an integer. In the source it is a `number` (boids.ts:84), set from a slider value times 3 (boids.ts:332); a fractional target would change the loop counts at boids.ts:115 and boids.ts:125, and no caller in the source produces one.
- Aliasing of velocity objects between boids. The in-place `+=`/`-=` at boids.ts:249-257 can reach the shared `vec3.Zero` only under a zero speed limit, where the change is 0. So velocities are modelled as values.

## Findings

| source | as written | input that shows it | evidently intended | confidence | as-written member | corrected member |
|---|---|---|---|---|---|---|
| boids.ts:125-126 | the shrink loop runs from `currentCount` down to `boidNum` inclusive, popping `currentCount - boidNum + 1` times | 3 boids with `boidNum = 2` leave 1 boid; a second `InitBoids` then spawns one back | pop `currentCount - boidNum` times, leaving exactly `boidNum` boids, so resizing is idempotent | high (not executed) | `Population.InitBoidsShrinkOffByOne` | `Population.ResizeIdempotent` |

=== FILE: arith.dfy ===
/** Facts about products and quotients of reals that the solver does not find
    unaided; each is stated for plain reals and used by the vector and
    steering proofs. */
module RealArith {

  lemma MulNonNegative(a: real, b: real)
    requires a >= 0.0 && b >= 0.0
    ensures a * b >= 0.0
  {
  }

  lemma MulPositive(a: real, b: real)
    requires a > 0.0 && b > 0.0
    ensures a * b > 0.0
  {
  }

  lemma MulNonPositive(a: real, b: real)
    requires a <= 0.0 && b >= 0.0
    ensures a * b <= 0.0
  {
  }

  /** A real square is non-negative. */
  lemma SquareNonNegative(a: real)
    ensures a * a >= 0.0
  {
    if a < 0.0 {
      assert a * a == (-a) * (-a);
    }
  }

  /** A sum of three squares is never negative. */
  lemma SumOfSquaresNonNegative(a: real, b: real, c: real)
    ensures a * a + b * b + c * c >= 0.0
  {
    SquareNonNegative(a);
    SquareNonNegative(b);
    SquareNonNegative(c);
  }

  /** For non-negative reals, comparing squares compares the values. */
  lemma SquareMonotonic(m: real, limit: real)
    requires m >= 0.0 && limit >= 0.0
    ensures m > limit <==> m * m > limit * limit
  {
    assert m * m - limit * limit == (m - limit) * (m + limit);
    if m > limit {
      MulPositive(m - limit, m + limit);
    } else {
      MulNonPositive(m - limit, m + limit);
    }
  }

  /** A square of a factor in [-1, 1] is at most 1. */
  lemma SquareAtMostOne(f: real)
    requires -1.0 <= f <= 1.0
    ensures f * f <= 1.0
  {
    assert 1.0 - f * f == (1.0 - f) * (1.0 + f);
    MulNonNegative(1.0 - f, 1.0 + f);
  }

  /** Dividing by a positive number compares with that number. */
  lemma RatioAboveOne(m: real, limit: real)
    requires limit > 0.0
    ensures m / limit > 1.0 <==> m > limit
  {
    var q := m / limit;
    assert q * limit == m;
    assert m - limit == (q - 1.0) * limit;
    if q > 1.0 {
      MulPositive(q - 1.0, limit);
    } else {
      MulNonPositive(q - 1.0, limit);
    }
  }

  /** A non-negative number divided by a negative one is not positive. */
  lemma RatioNonPositive(m: real, limit: real)
    requires limit < 0.0 && m >= 0.0
    ensures m / limit <= 0.0
  {
    var q := m / limit;
    assert q * limit == m;
    if q > 0.0 {
      MulPositive(q, -limit);
    }
  }

  /** A draw in [0, 1) scaled by a non-negative limit stays in [0, limit]. */
  lemma UnitScale(r: real, limit: real)
    requires 0.0 <= r < 1.0
    ensures limit >= 0.0 ==> 0.0 <= r * limit <= limit
    ensures limit > 0.0 ==> r * limit < limit
  {
    if limit >= 0.0 {
      MulNonNegative(r, limit);
      MulNonNegative(1.0 - r, limit);
    }
    if limit > 0.0 {
      MulPositive(1.0 - r, limit);
    }
  }

  /** `(1 - 2r) * limit` for a draw r in [0, 1) lies in [-limit, limit], and
      above `-limit` when the limit is positive. */
  lemma SymmetricUnitScale(r: real, limit: real)
    requires 0.0 <= r < 1.0
    ensures limit >= 0.0 ==> -limit <= (1.0 - 2.0 * r) * limit <= limit
    ensures limit > 0.0 ==> -limit < (1.0 - 2.0 * r) * limit
  {
    UnitScale(r, limit);
    assert (1.0 - 2.0 * r) * limit == limit - 2.0 * (r * limit);
  }

  /** Scaling by a factor in [-1, 1] does not increase a non-negative
      quantity scaled by the factor's square. */
  lemma SquareFactorShrinks(f: real, m: real)
    requires m >= 0.0
    ensures -1.0 <= f <= 1.0 ==> f * f * m <= m
  {
    if -1.0 <= f <= 1.0 {
      SquareAtMostOne(f);
      MulNonPositive(f * f - 1.0, m);
    }
  }

  /** Scaling one factor of a product scales the product. */
  lemma ScaleProduct(a: real, b: real, k: real)
    ensures (a * k) * b == k * (a * b)
  {
  }

  /** The cross term of a square of a sum. */
  lemma SquareOfSum(a: real, b: real)
    ensures (a + b) * (a + b) - a * a - b * b == 2.0 * (a * b)
  {
  }

  /** Equal reals times the same factor are equal. */
  lemma MulCongruence(a: real, b: real, f: real)
    requires a == b
    ensures a * f == b * f
  {
  }

  /** `((s / n) - p) * f * n` is `(s - p * n) * f`, with every intermediate
      value named as the vector operations compute it. */
  lemma AverageScaledBack(
    s: real, p: real, f: real, n: real,
    c: real, d: real, e: real, l: real, pn: real, g: real, r: real)
    requires n > 0.0
    requires c == s * (1.0 / n) && d == c - p && e == d * f && l == e * n
    requires pn == p * n && g == s - pn && r == g * f
    ensures l == r
  {
    var q := 1.0 / n;
    assert q * n == 1.0;
    MulCongruence(d, s * q - p, f);
    MulCongruence(e, (s * q - p) * f, n);
    MulCongruence(g, s - p * n, f);
    assert (s * q - p) * f * n == s * f * (q * n) - p * n * f;
  }

  /** `x / limit` scaled back by `limit` is `x`. */
  lemma QuotientScaledBack(x: real, limit: real)
    requires limit != 0.0
    ensures x / limit * limit == x
  {
  }

  /** A value in (-limit, limit] divided by a positive limit lies in (-1, 1]. */
  lemma QuotientInUnitBand(x: real, limit: real)
    requires limit > 0.0 && -limit < x <= limit
    ensures -1.0 < x / limit <= 1.0
  {
    var q := x / limit;
    assert q * limit == x;
    if q <= -1.0 {
      MulNonPositive(q + 1.0, limit);
    }
    if q > 1.0 {
      MulPositive(q - 1.0, limit);
    }
  }

  /** A non-positive value divided by a positive limit is non-positive. */
  lemma QuotientNonPositive(x: real, limit: real)
    requires limit > 0.0 && x <= 0.0
    ensures x / limit <= 0.0
  {
    var q := x / limit;
    assert q * limit == x;
    if q > 0.0 {
      MulPositive(q, limit);
    }
  }
}

=== FILE: boid.dfy ===
/** The state of one boid, the screen it flies in and the tunable parameters of
    the flock behaviour. */
module Boids {
  import opened Vectors

  /** One simulated agent. */
  datatype Boid = Boid(Position: Vec3, Velocity: Vec3, IsPerching: bool)

  /** The drawing surface; its size changes when the window is resized. */
  datatype World = World(width: real, height: real)

  /** Width of the band along each screen edge in which boids are spawned away
      from and steered back from. */
  const Margin: real := 150.0

  /** Fraction of the speed limit added per frame to steer a boid off an edge band. */
  const TurnFactor: real := 0.75

  /** The tunable fields of the flock behaviour. Both distances are squared
      distances; alignment reuses the cohesion radius. */
  datatype Settings = Settings(
    boidNum: int,
    separationDistance: real,
    separationFactor: real,
    cohesionDistance: real,
    cohesionFactor: real,
    alignmentFactor: real,
    speedLimit: real,
    speedConvergenceFactor: real)

  /** A value `Math.random()` can return. */
  predicate IsUnitDraw(r: real)
  {
    0.0 <= r < 1.0
  }
}

=== FILE: neighbours.dfy ===
/** The neighbour scan shared by Separation, Cohesion and Alignment: every boid of
    the flock other than the one being updated, skipping perching boids, whose
    squared distance is within a squared threshold. The scans run over the list
    in order, so they are modelled as folds over the first `n` indices. */
module Neighbours {
  import opened Vectors
  import opened Boids

  /** What a scan adds up for each neighbour: the vector from the neighbour to
      a point (Separation), the neighbour's position (Cohesion) or its
      velocity (Alignment). */
  datatype Term = AwayFrom(point: Vec3) | PositionTerm | VelocityTerm

  function TermOf(t: Term, a: Boid): Vec3
  {
    match t
    case AwayFrom(point) => point.Subtract(a.Position)
    case PositionTerm => a.Position
    case VelocityTerm => a.Velocity
  }

  /** Boid `j` is counted by the scan for boid `i`. */
  predicate IsNeighbour(flock: seq<Boid>, i: nat, j: nat, threshold: real)
    requires i < |flock| && j < |flock|
  {
    j != i && !flock[j].IsPerching
    && flock[i].Position.SquareDistance(flock[j].Position) <= threshold
  }

  /** The number of neighbours of boid `i` among the first `n` boids. */
  function NeighbourCount(flock: seq<Boid>, i: nat, threshold: real, n: nat): (c: nat)
    requires i < |flock| && n <= |flock|
    ensures c <= n
    ensures c == 0 <==> forall j :: 0 <= j < n ==> !IsNeighbour(flock, i, j, threshold)
  {
    if n == 0 then 0
    else
      NeighbourCount(flock, i, threshold, n - 1)
      + (if IsNeighbour(flock, i, n - 1, threshold) then 1 else 0)
  }

  /** The sum of `term` over the neighbours of boid `i` among the first `n`
      boids, accumulated from the zero vector in list order. */
  function NeighbourSum(flock: seq<Boid>, i: nat, threshold: real, n: nat, term: Term): (s: Vec3)
    requires i < |flock| && n <= |flock|
    ensures NeighbourCount(flock, i, threshold, n) == 0 ==> s == Zero
  {
    if n == 0 then Zero
    else
      var s := NeighbourSum(flock, i, threshold, n - 1, term);
      if IsNeighbour(flock, i, n - 1, threshold) then s.Add(TermOf(term, flock[n - 1])) else s
  }

  /** Reference definition of the neighbours of boid `i`: the indices of the
      other, non-perching boids within the squared threshold. */
  ghost function NeighbourSet(flock: seq<Boid>, i: nat, threshold: real): set<nat>
    requires i < |flock|
  {
    set j: nat | j < |flock| && j != i && !flock[j].IsPerching
      && flock[i].Position.SquareDistance(flock[j].Position) <= threshold
  }

  ghost function NeighbourPrefix(flock: seq<Boid>, i: nat, threshold: real, n: nat): set<nat>
    requires i < |flock| && n <= |flock|
  {
    set j: nat | j < n && IsNeighbour(flock, i, j, threshold)
  }

  lemma {:induction false} NeighbourCountPrefix(flock: seq<Boid>, i: nat, threshold: real, n: nat)
    requires i < |flock| && n <= |flock|
    ensures NeighbourCount(flock, i, threshold, n) == |NeighbourPrefix(flock, i, threshold, n)|
  {
    if n > 0 {
      NeighbourCountPrefix(flock, i, threshold, n - 1);
      var before := NeighbourPrefix(flock, i, threshold, n - 1);
      if IsNeighbour(flock, i, n - 1, threshold) {
        assert NeighbourPrefix(flock, i, threshold, n) == before + {n - 1};
      } else {
        assert NeighbourPrefix(flock, i, threshold, n) == before;
      }
    }
  }

  /** The scan counts exactly the boids of the reference neighbour set: never
      boid `i` itself and never a perching boid. */
  lemma NeighbourCountIsSetSize(flock: seq<Boid>, i: nat, threshold: real)
    requires i < |flock|
    ensures NeighbourCount(flock, i, threshold, |flock|) == |NeighbourSet(flock, i, threshold)|
  {
    NeighbourCountPrefix(flock, i, threshold, |flock|);
    assert NeighbourPrefix(flock, i, threshold, |flock|) == NeighbourSet(flock, i, threshold);
  }

  /** Two flocks on which boid `i` has the same neighbours, with the same
      `term` values, give the same scan: nothing but the neighbours is read. */
  lemma {:induction false} ScanDependsOnlyOnNeighbours(
    flock: seq<Boid>, other: seq<Boid>, i: nat, threshold: real, term: Term, n: nat)
    requires |flock| == |other| && i < |flock| && n <= |flock|
    requires forall j :: 0 <= j < |flock| ==>
      IsNeighbour(flock, i, j, threshold) == IsNeighbour(other, i, j, threshold)
    requires forall j :: 0 <= j < |flock| && IsNeighbour(flock, i, j, threshold) ==>
      TermOf(term, flock[j]) == TermOf(term, other[j])
    ensures NeighbourCount(flock, i, threshold, n) == NeighbourCount(other, i, threshold, n)
    ensures NeighbourSum(flock, i, threshold, n, term) == NeighbourSum(other, i, threshold, n, term)
  {
    if n > 0 {
      ScanDependsOnlyOnNeighbours(flock, other, i, threshold, term, n - 1);
      assert IsNeighbour(flock, i, n - 1, threshold) == IsNeighbour(other, i, n - 1, threshold);
    }
  }

  /** Replacing a perching boid by another perching boid changes no scan. */
  lemma PerchingBoidIsIgnored(
    flock: seq<Boid>, i: nat, j: nat, replacement: Boid, threshold: real, term: Term)
    requires i < |flock| && j < |flock| && j != i
    requires flock[j].IsPerching && replacement.IsPerching
    ensures NeighbourCount(flock[j := replacement], i, threshold, |flock|)
         == NeighbourCount(flock, i, threshold, |flock|)
    ensures NeighbourSum(flock[j := replacement], i, threshold, |flock|, term)
         == NeighbourSum(flock, i, threshold, |flock|, term)
  {
    var other := flock[j := replacement];
    forall k | 0 <= k < |flock|
      ensures IsNeighbour(flock, i, k, threshold) == IsNeighbour(other, i, k, threshold)
    {
    }
    ScanDependsOnlyOnNeighbours(flock, other, i, threshold, term, |flock|);
  }

  /** With exactly one neighbour `j`, the scan sums to that neighbour's term. */
  lemma {:induction false} SoleNeighbourScan(
    flock: seq<Boid>, i: nat, j: nat, threshold: real, term: Term, n: nat)
    requires i < |flock| && j < |flock| && n <= |flock|
    requires forall k :: 0 <= k < |flock| ==> (IsNeighbour(flock, i, k, threshold) <==> k == j)
    ensures NeighbourCount(flock, i, threshold, n) == (if j < n then 1 else 0)
    ensures NeighbourSum(flock, i, threshold, n, term) == (if j < n then TermOf(term, flock[j]) else Zero)
  {
    if n > 0 {
      SoleNeighbourScan(flock, i, j, threshold, term, n - 1);
      if j == n - 1 {
        ZeroIsAdditiveIdentity(TermOf(term, flock[j]));
      }
    }
  }

  /** Every neighbour contributes its term exactly once, on top of the others:
      taking neighbour `j` out of the scan (marking it perching) lowers the
      count by one and removes exactly `j`'s term from the sum. Applied
      repeatedly, this fixes the sum for any number of neighbours. */
  lemma {:induction false} RemoveNeighbourScan(
    flock: seq<Boid>, i: nat, j: nat, threshold: real, term: Term, n: nat)
    requires i < |flock| && j < |flock| && n <= |flock|
    requires IsNeighbour(flock, i, j, threshold)
    ensures var g := flock[j := flock[j].(IsPerching := true)];
      NeighbourCount(flock, i, threshold, n)
      == NeighbourCount(g, i, threshold, n) + (if j < n then 1 else 0)
    ensures var g := flock[j := flock[j].(IsPerching := true)];
      NeighbourSum(flock, i, threshold, n, term)
      == if j < n then NeighbourSum(g, i, threshold, n, term).Add(TermOf(term, flock[j]))
         else NeighbourSum(g, i, threshold, n, term)
  {
    if n > 0 {
      var g := flock[j := flock[j].(IsPerching := true)];
      RemoveNeighbourScan(flock, i, j, threshold, term, n - 1);
      if n - 1 == j {
        assert !IsNeighbour(g, i, j, threshold);
      } else {
        assert IsNeighbour(g, i, n - 1, threshold) == IsNeighbour(flock, i, n - 1, threshold);
        assert TermOf(term, g[n - 1]) == TermOf(term, flock[n - 1]);
      }
    }
  }
}

=== FILE: population.dfy ===
/** Resizing the flock to the configured number of boids. New boids are
    appended at a random position inside the screen margins with a random
    velocity; surplus boids are popped from the end of the list. */
module Population {
  import opened RealArith
  import opened Vectors
  import opened Boids
  import opened Steering

  /** `Math.random()` draws consumed by one new boid: its x and y position,
      then the x and y of its velocity. */
  datatype SpawnDraws = SpawnDraws(px: real, py: real, vx: real, vy: real)

  predicate IsSpawnDraws(d: SpawnDraws)
  {
    IsUnitDraw(d.px) && IsUnitDraw(d.py) && IsUnitDraw(d.vx) && IsUnitDraw(d.vy)
  }

  /** `Math.random() * (extent - 2 * Margin) + Margin`: uniform on
      [Margin, extent - Margin) when the screen is wider than both margins. */
  function SpawnCoordinate(r: real, extent: real): (c: real)
    requires IsUnitDraw(r)
    ensures extent > 2.0 * Margin ==> Margin <= c < extent - Margin
  {
    var span := extent - 2.0 * Margin;
    UnitScale(r, span);
    r * span + Margin
  }

  /** Every point strictly inside the margins is the spawn coordinate of some
      draw, so spawning fills the whole band and not just part of it. */
  lemma SpawnCoordinateCovers(c: real, extent: real)
    requires extent > 2.0 * Margin && Margin <= c < extent - Margin
    ensures var r := (c - Margin) / (extent - 2.0 * Margin);
      IsUnitDraw(r) && SpawnCoordinate(r, extent) == c
  {
    var span := extent - 2.0 * Margin;
    var r := (c - Margin) / span;
    assert r * span == c - Margin;
    if r < 0.0 {
      MulPositive(-r, span);
    }
    if r >= 1.0 {
      MulNonNegative(r - 1.0, span);
    }
  }

  /** A freshly created boid: flying, in the plane z = 0, inside the margins,
      with a random velocity. */
  function SpawnBoid(d: SpawnDraws, w: World, speedLimit: real): (b: Boid)
    requires IsSpawnDraws(d)
    ensures !b.IsPerching && b.Position.z == 0.0
    ensures w.width > 2.0 * Margin ==> Margin <= b.Position.x < w.width - Margin
    ensures w.height > 2.0 * Margin ==> Margin <= b.Position.y < w.height - Margin
    ensures b.Position == Vec3(SpawnCoordinate(d.px, w.width), SpawnCoordinate(d.py, w.height), 0.0)
    ensures b.Velocity == RandomVelocity(speedLimit, false, d.vx, d.vy)
  {
    Boid(
      Vec3(SpawnCoordinate(d.px, w.width), SpawnCoordinate(d.py, w.height), 0.0),
      RandomVelocity(speedLimit, false, d.vx, d.vy),
      false)
  }

  /** Appends new boids until the list holds `target`, the k-th new boid made
      from the k-th draw. */
  function Grow(boids: seq<Boid>, target: int, w: World, speedLimit: real, draws: seq<SpawnDraws>): (r: seq<Boid>)
    requires |boids| <= target && target - |boids| <= |draws|
    requires forall k | 0 <= k < |draws| :: IsSpawnDraws(draws[k])
    ensures |r| == target && r[..|boids|] == boids
    ensures forall k | |boids| <= k < target :: r[k] == SpawnBoid(draws[k - |boids|], w, speedLimit)
  {
    boids + seq(target - |boids|, k requires 0 <= k < target - |boids| => SpawnBoid(draws[k], w, speedLimit))
  }

  /** `k` calls of `pop()`; popping an empty list does nothing. The result is
      the prefix that keeps `|s| - k` boids, or none. */
  function PopTimes(s: seq<Boid>, k: nat): (r: seq<Boid>)
    ensures |r| == if k <= |s| then |s| - k else 0
    ensures r == s[..|r|]
  {
    if k == 0 || |s| == 0 then s
    else PopTimes(s[..|s| - 1], k - 1)
  }

  /** `InitBoids` as written. Growing appends `boidNum - |boids|` new boids.
      Shrinking runs its pop loop from `|boids|` down to `boidNum` inclusive,
      i.e. `|boids| - boidNum + 1` times, leaving `boidNum - 1` boids (none
      when `boidNum <= 0`). */
  function InitBoids(boids: seq<Boid>, s: Settings, w: World, draws: seq<SpawnDraws>): (r: seq<Boid>)
    requires s.boidNum >= |boids| ==> s.boidNum - |boids| <= |draws|
    requires forall k | 0 <= k < |draws| :: IsSpawnDraws(draws[k])
    ensures s.boidNum >= |boids| ==> |r| == s.boidNum && r[..|boids|] == boids
    ensures s.boidNum >= |boids| ==>
      forall k | |boids| <= k < |r| :: r[k] == SpawnBoid(draws[k - |boids|], w, s.speedLimit)
    ensures s.boidNum == |boids| ==> r == boids
    ensures s.boidNum < |boids| ==> r == boids[..if s.boidNum >= 1 then s.boidNum - 1 else 0]
  {
    if s.boidNum >= |boids| then
      Grow(boids, s.boidNum, w, s.speedLimit, draws)
    else
      PopTimes(boids, |boids| - s.boidNum + 1)
  }

  /** Every boid InitBoids adds is flying, lies in the plane z = 0 and starts
      inside the margins of a screen wider and taller than both margins. */
  lemma InitBoidsSpawnsInsideMargins(boids: seq<Boid>, s: Settings, w: World, draws: seq<SpawnDraws>)
    requires |boids| <= s.boidNum && s.boidNum - |boids| <= |draws|
    requires forall k | 0 <= k < |draws| :: IsSpawnDraws(draws[k])
    requires w.width > 2.0 * Margin && w.height > 2.0 * Margin
    ensures var r := InitBoids(boids, s, w, draws);
      forall k | |boids| <= k < |r| ::
        && !r[k].IsPerching && r[k].Position.z == 0.0
        && Margin <= r[k].Position.x < w.width - Margin
        && Margin <= r[k].Position.y < w.height - Margin
  {
  }

  /** The shrink branch keeps one boid fewer than asked: three boids resized
      to two leave one. */
  lemma InitBoidsShrinkOffByOne(boids: seq<Boid>, s: Settings, w: World)
    requires |boids| == 3 && s.boidNum == 2
    ensures |InitBoids(boids, s, w, [])| == 1
  {
  }

  /** Because of the off-by-one, asking twice for the same smaller size is
      not idempotent: the second call grows the list back by one new boid. */
  lemma InitBoidsRepeatedShrinkRespawns(
    boids: seq<Boid>, s: Settings, w: World, draws: seq<SpawnDraws>)
    requires 1 <= s.boidNum < |boids| && 1 <= |draws|
    requires forall k | 0 <= k < |draws| :: IsSpawnDraws(draws[k])
    ensures var once := InitBoids(boids, s, w, []);
      var twice := InitBoids(once, s, w, draws);
      |once| == s.boidNum - 1 && |twice| == s.boidNum && twice != once
      && twice[s.boidNum - 1] == SpawnBoid(draws[0], w, s.speedLimit)
  {
  }

  /** The intended resize: the same growth, but the shrink loop stops at
      `boidNum` exclusive, so exactly `boidNum` boids (none when negative)
      remain. */
  function Resize(boids: seq<Boid>, s: Settings, w: World, draws: seq<SpawnDraws>): (r: seq<Boid>)
    requires s.boidNum >= |boids| ==> s.boidNum - |boids| <= |draws|
    requires forall k | 0 <= k < |draws| :: IsSpawnDraws(draws[k])
    ensures |r| == if s.boidNum >= 0 then s.boidNum else 0
    ensures s.boidNum <= |boids| ==> r == boids[..|r|]
    ensures s.boidNum >= |boids| ==> r[..|boids|] == boids
    ensures s.boidNum >= |boids| ==>
      forall k | |boids| <= k < |r| :: r[k] == SpawnBoid(draws[k - |boids|], w, s.speedLimit)
  {
    if s.boidNum >= |boids| then
      Grow(boids, s.boidNum, w, s.speedLimit, draws)
    else
      PopTimes(boids, |boids| - s.boidNum)
  }

  /** Resizing to the same size twice is the same as resizing once, whatever
      the second call would draw. */
  lemma ResizeIdempotent(
    boids: seq<Boid>, s: Settings, w: World, draws: seq<SpawnDraws>, more: seq<SpawnDraws>)
    requires s.boidNum >= |boids| ==> s.boidNum - |boids| <= |draws|
    requires forall k | 0 <= k < |draws| :: IsSpawnDraws(draws[k])
    requires forall k | 0 <= k < |more| :: IsSpawnDraws(more[k])
    ensures var once := Resize(boids, s, w, draws);
      Resize(once, s, w, more) == once
  {
    var once := Resize(boids, s, w, draws);
    if s.boidNum < 0 {
      assert |once| == 0;
    }
  }
}

=== FILE: steering.dfy ===
/** The per-boid rules of one frame, in the order they run: Separation,
    Cohesion, Alignment, LimitSpeed, LimitWithinScreen, RandomPerch and
    UpdatePosition, plus the random velocity used to spawn boids and to let a
    boid take off again. Each rule returns the updated boid; the three
    steering rules read the other boids from the flock as it stands when the
    rule runs. */
module Steering {
  import opened RealArith
  import opened Vectors
  import opened Boids
  import opened Neighbours

  // ---------------------------------------------------------------------------
  // Random velocity

  /** `Math.random()` draws consumed by RandomPerch: one for the perch decision
      and two for the take-off velocity. */
  datatype PerchDraws = PerchDraws(perch: real, vx: real, vy: real)

  predicate IsPerchDraws(d: PerchDraws)
  {
    IsUnitDraw(d.perch) && IsUnitDraw(d.vx) && IsUnitDraw(d.vy)
  }

  /** `(1 - 2 * Math.random()) * limit`: uniform on (-limit, limit]. */
  function SymmetricDraw(r: real, limit: real): (v: real)
    requires IsUnitDraw(r)
    ensures limit >= 0.0 ==> -limit <= v <= limit
    ensures limit > 0.0 ==> -limit < v
  {
    SymmetricUnitScale(r, limit);
    (1.0 - 2.0 * r) * limit
  }

  /** `- Math.random() * limit`: uniform on (-limit, 0]. */
  function UpwardDraw(r: real, limit: real): (v: real)
    requires IsUnitDraw(r)
    ensures limit >= 0.0 ==> -limit <= v <= 0.0
    ensures limit > 0.0 ==> -limit < v
  {
    UnitScale(r, limit);
    -r * limit
  }

  /** A random velocity in the x/y plane, each of x and y drawn from
      (-speedLimit, speedLimit], with y drawn from (-speedLimit, 0] instead
      when `yNegative` holds (an upward burst: screen y grows downwards). */
  function RandomVelocity(speedLimit: real, yNegative: bool, rx: real, ry: real): (v: Vec3)
    requires IsUnitDraw(rx) && IsUnitDraw(ry)
    ensures v.z == 0.0
    ensures speedLimit >= 0.0 ==>
      -speedLimit <= v.x <= speedLimit && -speedLimit <= v.y <= speedLimit
    ensures speedLimit > 0.0 ==> -speedLimit < v.x && -speedLimit < v.y
    ensures yNegative && speedLimit >= 0.0 ==> v.y <= 0.0
  {
    Vec3(
      SymmetricDraw(rx, speedLimit),
      if yNegative then UpwardDraw(ry, speedLimit) else SymmetricDraw(ry, speedLimit),
      0.0)
  }

  /** Every value in (-limit, limit] is drawn by SymmetricDraw for some draw. */
  lemma SymmetricDrawCovers(x: real, limit: real)
    requires limit > 0.0 && -limit < x <= limit
    ensures var r := (1.0 - x / limit) / 2.0; IsUnitDraw(r) && SymmetricDraw(r, limit) == x
  {
    QuotientInUnitBand(x, limit);
    QuotientScaledBack(x, limit);
  }

  /** Every value in (-limit, 0] is drawn by UpwardDraw for some draw. */
  lemma UpwardDrawCovers(y: real, limit: real)
    requires limit > 0.0 && -limit < y <= 0.0
    ensures var r := -(y / limit); IsUnitDraw(r) && UpwardDraw(r, limit) == y
  {
    QuotientInUnitBand(y, limit);
    QuotientNonPositive(y, limit);
    QuotientScaledBack(y, limit);
  }

  /** Every velocity in the ranges RandomVelocity promises is produced by some
      pair of draws: the ranges are exact. */
  lemma RandomVelocityCoversRange(speedLimit: real, yNegative: bool, x: real, y: real)
    requires speedLimit > 0.0
    requires -speedLimit < x <= speedLimit
    requires -speedLimit < y <= (if yNegative then 0.0 else speedLimit)
    ensures exists rx, ry ::
      && IsUnitDraw(rx) && IsUnitDraw(ry)
      && RandomVelocity(speedLimit, yNegative, rx, ry) == Vec3(x, y, 0.0)
  {
    SymmetricDrawCovers(x, speedLimit);
    var rx := (1.0 - x / speedLimit) / 2.0;
    if yNegative {
      UpwardDrawCovers(y, speedLimit);
      var ry := -(y / speedLimit);
      assert RandomVelocity(speedLimit, yNegative, rx, ry) == Vec3(x, y, 0.0);
    } else {
      SymmetricDrawCovers(y, speedLimit);
      var ry := (1.0 - y / speedLimit) / 2.0;
      assert RandomVelocity(speedLimit, yNegative, rx, ry) == Vec3(x, y, 0.0);
    }
  }

  // ---------------------------------------------------------------------------
  // Separation, Cohesion, Alignment

  /** Adds to boid `i`'s velocity the sum of the vectors from each neighbour
      within the separation distance to the boid, unaveraged, scaled by the
      separation factor. */
  function Separation(flock: seq<Boid>, i: nat, s: Settings): (r: Boid)
    requires i < |flock|
    ensures r.Position == flock[i].Position && r.IsPerching == flock[i].IsPerching
    ensures NeighbourCount(flock, i, s.separationDistance, |flock|) == 0 ==> r == flock[i]
    ensures s.separationFactor == 0.0 ==> r == flock[i]
  {
    var b := flock[i];
    var displacement := NeighbourSum(flock, i, s.separationDistance, |flock|, AwayFrom(b.Position));
    ZeroIsAdditiveIdentity(b.Velocity);
    b.(Velocity := b.Velocity.Add(displacement.Times(s.separationFactor)))
  }

  /** `((sum / n) - p) * f`, scaled back by `n`, is `(sum - p * n) * f`: the
      averaged pull, free of the division. */
  lemma AveragePull(sum: Vec3, p: Vec3, f: real, n: real)
    requires n > 0.0
    ensures sum.Times(1.0 / n).Subtract(p).Times(f).Times(n) == sum.Subtract(p.Times(n)).Times(f)
  {
    var c := sum.Times(1.0 / n);
    var d := c.Subtract(p);
    var e := d.Times(f);
    var l := e.Times(n);
    var pn := p.Times(n);
    var g := sum.Subtract(pn);
    var r := g.Times(f);
    AverageScaledBack(sum.x, p.x, f, n, c.x, d.x, e.x, l.x, pn.x, g.x, r.x);
    AverageScaledBack(sum.y, p.y, f, n, c.y, d.y, e.y, l.y, pn.y, g.y, r.y);
    AverageScaledBack(sum.z, p.z, f, n, c.z, d.z, e.z, l.z, pn.z, g.z, r.z);
  }

  /** Steers boid `i` towards the centroid of its neighbours within the
      cohesion distance. The velocity change, multiplied by the neighbour
      count `n`, is `(sum of neighbour positions - n * position) * factor`;
      with no neighbour the boid is unchanged. */
  function Cohesion(flock: seq<Boid>, i: nat, s: Settings): (r: Boid)
    requires i < |flock|
    ensures r.Position == flock[i].Position && r.IsPerching == flock[i].IsPerching
    ensures NeighbourCount(flock, i, s.cohesionDistance, |flock|) == 0 ==> r == flock[i]
    ensures var n := NeighbourCount(flock, i, s.cohesionDistance, |flock|);
      n > 0 ==>
        r.Velocity.Subtract(flock[i].Velocity).Times(n as real)
        == NeighbourSum(flock, i, s.cohesionDistance, |flock|, PositionTerm)
             .Subtract(flock[i].Position.Times(n as real)).Times(s.cohesionFactor)
  {
    var b := flock[i];
    var num := NeighbourCount(flock, i, s.cohesionDistance, |flock|);
    if num > 0 then
      var sum := NeighbourSum(flock, i, s.cohesionDistance, |flock|, PositionTerm);
      var center := sum.Times(1.0 / num as real);
      var displacement := center.Subtract(b.Position).Times(s.cohesionFactor);
      AveragePull(sum, b.Position, s.cohesionFactor, num as real);
      b.(Velocity := b.Velocity.Add(displacement))
    else
      b
  }

  /** Steers boid `i`'s velocity towards the average velocity of its
      neighbours within the cohesion distance (alignment has no radius of its
      own). The velocity change, multiplied by the neighbour count `n`, is
      `(sum of neighbour velocities - n * velocity) * factor`; with no
      neighbour the boid is unchanged. */
  function Alignment(flock: seq<Boid>, i: nat, s: Settings): (r: Boid)
    requires i < |flock|
    ensures r.Position == flock[i].Position && r.IsPerching == flock[i].IsPerching
    ensures NeighbourCount(flock, i, s.cohesionDistance, |flock|) == 0 ==> r == flock[i]
    ensures var n := NeighbourCount(flock, i, s.cohesionDistance, |flock|);
      n > 0 ==>
        r.Velocity.Subtract(flock[i].Velocity).Times(n as real)
        == NeighbourSum(flock, i, s.cohesionDistance, |flock|, VelocityTerm)
             .Subtract(flock[i].Velocity.Times(n as real)).Times(s.alignmentFactor)
  {
    var b := flock[i];
    var num := NeighbourCount(flock, i, s.cohesionDistance, |flock|);
    if num > 0 then
      var sum := NeighbourSum(flock, i, s.cohesionDistance, |flock|, VelocityTerm);
      var average := sum.Times(1.0 / num as real);
      var change := average.Subtract(b.Velocity).Times(s.alignmentFactor);
      AveragePull(sum, b.Velocity, s.alignmentFactor, num as real);
      b.(Velocity := b.Velocity.Add(change))
    else
      b
  }

  /** None of the three steering rules reads a perching boid: replacing one
      (other than the boid being updated) by any other perching boid leaves
      their results unchanged. */
  lemma SteeringIgnoresPerchingBoids(flock: seq<Boid>, i: nat, j: nat, replacement: Boid, s: Settings)
    requires i < |flock| && j < |flock| && j != i
    requires flock[j].IsPerching && replacement.IsPerching
    ensures Separation(flock[j := replacement], i, s) == Separation(flock, i, s)
    ensures Cohesion(flock[j := replacement], i, s) == Cohesion(flock, i, s)
    ensures Alignment(flock[j := replacement], i, s) == Alignment(flock, i, s)
  {
    var p := flock[i].Position;
    PerchingBoidIsIgnored(flock, i, j, replacement, s.separationDistance, AwayFrom(p));
    PerchingBoidIsIgnored(flock, i, j, replacement, s.cohesionDistance, PositionTerm);
    PerchingBoidIsIgnored(flock, i, j, replacement, s.cohesionDistance, VelocityTerm);
  }

  /** With a single neighbour `j` in range, Separation pushes boid `i` along
      the vector from `j` to `i`, Cohesion pulls it along the vector from `i`
      to `j`, and Alignment moves its velocity towards `j`'s. */
  lemma SoleNeighbourSteering(flock: seq<Boid>, i: nat, j: nat, threshold: real, s: Settings)
    requires i < |flock| && j < |flock|
    requires forall k :: 0 <= k < |flock| ==> (IsNeighbour(flock, i, k, threshold) <==> k == j)
    ensures s.separationDistance == threshold ==>
      Separation(flock, i, s).Velocity
      == flock[i].Velocity.Add(flock[i].Position.Subtract(flock[j].Position).Times(s.separationFactor))
    ensures s.cohesionDistance == threshold ==>
      Cohesion(flock, i, s).Velocity
      == flock[i].Velocity.Add(flock[j].Position.Subtract(flock[i].Position).Times(s.cohesionFactor))
    ensures s.cohesionDistance == threshold ==>
      Alignment(flock, i, s).Velocity
      == flock[i].Velocity.Add(flock[j].Velocity.Subtract(flock[i].Velocity).Times(s.alignmentFactor))
  {
    SoleNeighbourScan(flock, i, j, threshold, AwayFrom(flock[i].Position), |flock|);
    SoleNeighbourScan(flock, i, j, threshold, PositionTerm, |flock|);
    SoleNeighbourScan(flock, i, j, threshold, VelocityTerm, |flock|);
  }

  /** Separation sums and does not average: each neighbour within the
      separation distance adds its own `(p - pj) * factor` to the velocity,
      whatever the other neighbours are. */
  lemma SeparationNeighbourContribution(flock: seq<Boid>, i: nat, j: nat, s: Settings)
    requires i < |flock| && j < |flock|
    requires IsNeighbour(flock, i, j, s.separationDistance)
    ensures var g := flock[j := flock[j].(IsPerching := true)];
      Separation(flock, i, s).Velocity
      == Separation(g, i, s).Velocity.Add(
           flock[i].Position.Subtract(flock[j].Position).Times(s.separationFactor))
  {
    var p := flock[i].Position;
    var g := flock[j := flock[j].(IsPerching := true)];
    var term := AwayFrom(p);
    RemoveNeighbourScan(flock, i, j, s.separationDistance, term, |flock|);
    TimesDistributes(
      NeighbourSum(g, i, s.separationDistance, |flock|, term), p.Subtract(flock[j].Position), s.separationFactor);
  }

  /** With exactly two neighbours `j` and `k` in range, Separation adds
      `((p - pj) + (p - pk)) * factor`: the full sum, not its average. */
  lemma SeparationTwoNeighbours(flock: seq<Boid>, i: nat, j: nat, k: nat, s: Settings)
    requires i < |flock| && j < |flock| && k < |flock| && j != k
    requires forall m :: 0 <= m < |flock| ==>
      (IsNeighbour(flock, i, m, s.separationDistance) <==> m == j || m == k)
    ensures var p := flock[i].Position;
      Separation(flock, i, s).Velocity
      == flock[i].Velocity.Add(
           p.Subtract(flock[j].Position).Add(p.Subtract(flock[k].Position)).Times(s.separationFactor))
  {
    var t := s.separationDistance;
    var p := flock[i].Position;
    var term := AwayFrom(p);
    var g := flock[j := flock[j].(IsPerching := true)];
    forall m | 0 <= m < |flock|
      ensures IsNeighbour(g, i, m, t) <==> m == k
    {
      assert m != j ==> IsNeighbour(g, i, m, t) == IsNeighbour(flock, i, m, t);
    }
    SoleNeighbourScan(g, i, k, t, term, |flock|);
    RemoveNeighbourScan(flock, i, j, t, term, |flock|);
  }

  // ---------------------------------------------------------------------------
  // LimitSpeed

  /** `|v| > limit` for a positive limit, stated without a square root. */
  predicate ExceedsSpeed(v: Vec3, limit: real)
  {
    limit > 0.0 && v.SquareMagnitude() > limit * limit
  }

  /** The ratio test `Magnitude() / SpeedLimit > 1` holds exactly when the
      squared comparison ExceedsSpeed does, for any non-zero limit (a negative
      limit makes the ratio non-positive). */
  lemma OverSpeedRatio(v: Vec3, limit: real, m: real)
    requires IsMagnitude(v, m) && limit != 0.0
    ensures m / limit > 1.0 <==> ExceedsSpeed(v, limit)
  {
    if limit > 0.0 {
      RatioAboveOne(m, limit);
      SquareMonotonic(m, limit);
    } else {
      RatioNonPositive(m, limit);
    }
  }

  /** A perching boid, or any boid under a zero speed limit, stops. Otherwise a
      boid faster than the limit has its velocity multiplied by the
      convergence factor (a damping step, not a clamp to the limit) and a boid
      within the limit is unchanged. */
  function LimitSpeed(b: Boid, s: Settings): (r: Boid)
    ensures r.Position == b.Position && r.IsPerching == b.IsPerching
    ensures b.IsPerching || s.speedLimit == 0.0 ==> r.Velocity == Zero
    ensures !b.IsPerching && s.speedLimit != 0.0 && ExceedsSpeed(b.Velocity, s.speedLimit) ==>
      r.Velocity == b.Velocity.Times(s.speedConvergenceFactor)
    ensures !b.IsPerching && s.speedLimit != 0.0 && !ExceedsSpeed(b.Velocity, s.speedLimit) ==> r == b
    ensures -1.0 <= s.speedConvergenceFactor <= 1.0 ==>
      r.Velocity.SquareMagnitude() <= b.Velocity.SquareMagnitude()
  {
    if b.IsPerching || s.speedLimit == 0.0 then
      b.(Velocity := Zero)
    else if ExceedsSpeed(b.Velocity, s.speedLimit) then
      var f := s.speedConvergenceFactor;
      TimesShrinksSquareMagnitude(b.Velocity, f);
      b.(Velocity := b.Velocity.Times(f))
    else
      b
  }

  /** A boid flying at 400 under a limit of 300 with convergence factor 0.4
      ends at speed 160, not 300. */
  lemma LimitSpeedDampsRatherThanClamps(b: Boid, s: Settings)
    requires !b.IsPerching && b.Velocity.SquareMagnitude() == 400.0 * 400.0
    requires s.speedLimit == 300.0 && s.speedConvergenceFactor == 0.4
    ensures IsMagnitude(LimitSpeed(b, s).Velocity, 160.0)
    ensures !IsMagnitude(LimitSpeed(b, s).Velocity, 300.0)
  {
    TimesScalesSquareMagnitude(b.Velocity, 0.4);
  }

  // ---------------------------------------------------------------------------
  // LimitWithinScreen

  /** A boid not perching inside the right (bottom) edge band has its x (y)
      velocity lowered by `speedLimit * TurnFactor`; otherwise inside the left
      (top) band it is raised by the same amount. The two axes are handled
      independently, z velocity and position are untouched, and a perching
      boid is left alone. */
  function LimitWithinScreen(b: Boid, s: Settings, w: World): (r: Boid)
    ensures r.Position == b.Position && r.IsPerching == b.IsPerching
    ensures r.Velocity.z == b.Velocity.z
    ensures b.IsPerching || s.speedLimit == 0.0 ==> r == b
    ensures !b.IsPerching ==>
      r.Velocity.x == b.Velocity.x + EdgeNudge(b.Position.x, w.width, s.speedLimit * TurnFactor)
      && r.Velocity.y == b.Velocity.y + EdgeNudge(b.Position.y, w.height, s.speedLimit * TurnFactor)
  {
    if b.IsPerching then b
    else
      var turn := s.speedLimit * TurnFactor;
      var v := b.Velocity;
      var vx := if b.Position.x >= w.width - Margin then v.x - turn
                else if b.Position.x <= Margin then v.x + turn
                else v.x;
      var vy := if b.Position.y >= w.height - Margin then v.y - turn
                else if b.Position.y <= Margin then v.y + turn
                else v.y;
      b.(Velocity := Vec3(vx, vy, v.z))
  }

  /** The velocity change LimitWithinScreen applies along one axis: a positive
      `turn` always points back towards the inner part of the screen. */
  function EdgeNudge(coordinate: real, extent: real, turn: real): (n: real)
    ensures turn > 0.0 ==> (n < 0.0 <==> coordinate >= extent - Margin)
    ensures turn > 0.0 ==> (n > 0.0 <==> coordinate < extent - Margin && coordinate <= Margin)
    ensures Margin < coordinate < extent - Margin ==> n == 0.0
    ensures n == turn || n == -turn || n == 0.0
  {
    if coordinate >= extent - Margin then -turn
    else if coordinate <= Margin then turn
    else 0.0
  }

  /** A boid at (100, 100) at rest, limit 300, on a 1000 by 1000 screen, is
      nudged to velocity (225, 225, 0). */
  lemma LimitWithinScreenCorner()
    ensures LimitWithinScreen(
      Boid(Vec3(100.0, 100.0, 0.0), Zero, false),
      Settings(0, 0.0, 0.0, 0.0, 0.0, 0.0, 300.0, 0.0),
      World(1000.0, 1000.0)).Velocity == Vec3(225.0, 225.0, 0.0)
  {
  }

  // ---------------------------------------------------------------------------
  // RandomPerch

  /** Chance to be perching after a draw: sticky once perching. */
  function PerchProbability(wasPerching: bool): real
  {
    if wasPerching then 0.9 else 0.5
  }

  /** A boid that is perching, or flying in the ground band at the bottom of the
      screen, draws whether to perch (with probability 0.9 if it already
      perches, 0.5 otherwise). A perching boid stops. A boid taking off whose
      velocity is the shared zero vector gets a random upward velocity; the
      source tests this by object identity, so `velocityIsSharedZero` says
      whether the boid's velocity object is that shared vector. Any other boid is
      left alone. */
  function RandomPerch(b: Boid, s: Settings, w: World, d: PerchDraws, velocityIsSharedZero: bool): (r: Boid)
    requires IsPerchDraws(d)
    requires velocityIsSharedZero ==> b.Velocity == Zero
    ensures r.Position == b.Position
    ensures !b.IsPerching && b.Position.y < w.height - Margin ==> r == b
    ensures r.IsPerching ==> r.Velocity == Zero
    ensures b.IsPerching || b.Position.y >= w.height - Margin ==>
      (r.IsPerching <==> d.perch <= PerchProbability(b.IsPerching))
    ensures !r.IsPerching && !velocityIsSharedZero ==> r.Velocity == b.Velocity
    ensures !r.IsPerching && velocityIsSharedZero && (b.IsPerching || b.Position.y >= w.height - Margin) ==>
      r.Velocity == RandomVelocity(s.speedLimit, true, d.vx, d.vy)
  {
    if !b.IsPerching && b.Position.y < w.height - Margin then b
    else
      var perching := d.perch <= PerchProbability(b.IsPerching);
      if perching then b.(IsPerching := true, Velocity := Zero)
      else if velocityIsSharedZero then
        b.(IsPerching := false, Velocity := RandomVelocity(s.speedLimit, true, d.vx, d.vy))
      else b.(IsPerching := false)
  }

  // ---------------------------------------------------------------------------
  // UpdatePosition

  /** Moves the boid by its velocity for `deltaTime` milliseconds. */
  function UpdatePosition(b: Boid, deltaTime: real): (r: Boid)
    ensures r.Velocity == b.Velocity && r.IsPerching == b.IsPerching
    ensures r.Position.Subtract(b.Position) == b.Velocity.Times(deltaTime / 1000.0)
  {
    b.(Position := b.Position.Add(b.Velocity.Times(deltaTime / 1000.0)))
  }

  /** A boid at the origin moving at (100, 0, 0) for 1000 ms ends at (100, 0, 0). */
  lemma UpdatePositionOneSecond()
    ensures UpdatePosition(Boid(Zero, Vec3(100.0, 0.0, 0.0), false), 1000.0).Position
         == Vec3(100.0, 0.0, 0.0)
  {
    var v := Vec3(100.0, 0.0, 0.0);
    assert 1000.0 / 1000.0 == 1.0;
    assert v.Times(1.0) == v;
  }
}

=== FILE: update.dfy ===
/** One frame of the simulation. The boids are processed one after another
    in list order, and each runs all seven rules, its position update
    included, before the next boid starts. A later boid therefore reads the
    already updated velocity, position and perch flag of every earlier boid.
    The frame is a left-to-right fold over the indices that rewrites only
    element `i` at step `i`. */
module Update {
  import opened Vectors
  import opened Boids
  import opened Steering

  /** All rules for boid `i` against the flock as it stands. In the source,
      the test in RandomPerch compares the velocity object with the shared
      zero vector. Within one iteration only LimitSpeed can store that
      object, which it does for a perching boid or under a zero speed limit,
      and LimitWithinScreen then changes it by `0 * TurnFactor` at most. */
  function StepBoid(flock: seq<Boid>, i: nat, s: Settings, w: World, d: PerchDraws, deltaTime: real): (b: Boid)
    requires i < |flock| && IsPerchDraws(d)
    ensures b.IsPerching ==> b.Velocity == Zero
    ensures !flock[i].IsPerching && flock[i].Position.y < w.height - Margin ==> !b.IsPerching
    ensures b.Position.Subtract(flock[i].Position) == b.Velocity.Times(deltaTime / 1000.0)
  {
    var separated := Separation(flock, i, s);
    var afterSeparation := flock[i := separated];
    var cohered := Cohesion(afterSeparation, i, s);
    var afterCohesion := afterSeparation[i := cohered];
    var aligned := Alignment(afterCohesion, i, s);
    var limited := LimitSpeed(aligned, s);
    var turned := LimitWithinScreen(limited, s, w);
    var velocityIsSharedZero := aligned.IsPerching || s.speedLimit == 0.0;
    var perched := RandomPerch(turned, s, w, d, velocityIsSharedZero);
    UpdatePosition(perched, deltaTime)
  }

  /** The list after its first `n` entries have been rewritten in order, entry
      `i` by `step` applied to the list as it stands at that moment. */
  function Fold(flock: seq<Boid>, step: (seq<Boid>, nat) -> Boid, n: nat): (r: seq<Boid>)
    requires n <= |flock|
    ensures |r| == |flock|
    ensures forall j | n <= j < |flock| :: r[j] == flock[j]
  {
    if n == 0 then flock
    else
      var before := Fold(flock, step, n - 1);
      before[n - 1 := step(before, n - 1)]
  }

  /** Entry `k` is rewritten once, against the list in which exactly the
      entries before it have already been rewritten; later rewrites leave it
      alone. */
  lemma {:induction false} FoldStepsAgainstUpdatedPrefix(
    flock: seq<Boid>, step: (seq<Boid>, nat) -> Boid, k: nat, n: nat)
    requires k < n <= |flock|
    ensures Fold(flock, step, n)[k] == step(Fold(flock, step, k), k)
  {
    if n > k + 1 {
      FoldStepsAgainstUpdatedPrefix(flock, step, k, n - 1);
    }
  }

  /** One frame's rule for boid `i`, reading the flock as it currently is. */
  function FrameStep(s: Settings, w: World, draws: seq<PerchDraws>, deltaTime: real): (seq<Boid>, nat) -> Boid
    requires forall k | 0 <= k < |draws| :: IsPerchDraws(draws[k])
  {
    (f: seq<Boid>, i: nat) =>
      if i < |f| && i < |draws| then StepBoid(f, i, s, w, draws[i], deltaTime) else Boid(Zero, Zero, false)
  }

  /** The flock after the first `n` boids have been stepped, each seeing the
      boids before it already updated. */
  function Advance(
    flock: seq<Boid>, s: Settings, w: World, draws: seq<PerchDraws>, deltaTime: real, n: nat): (r: seq<Boid>)
    requires n <= |flock| && |draws| == |flock|
    requires forall k | 0 <= k < |draws| :: IsPerchDraws(draws[k])
    ensures |r| == |flock|
    ensures forall j | n <= j < |flock| :: r[j] == flock[j]
    ensures forall j | 0 <= j < n :: r[j].IsPerching ==> r[j].Velocity == Zero
    ensures forall j | 0 <= j < n ::
      !flock[j].IsPerching && flock[j].Position.y < w.height - Margin ==> !r[j].IsPerching
    ensures forall j | 0 <= j < n ::
      r[j].Position.Subtract(flock[j].Position) == r[j].Velocity.Times(deltaTime / 1000.0)
  {
    StepGuarantees(flock, s, w, draws, deltaTime, n);
    Fold(flock, FrameStep(s, w, draws, deltaTime), n)
  }

  /** Each of the first `n` boids keeps `StepBoid`'s guarantees relative to its
      own starting state. */
  lemma StepGuarantees(
    flock: seq<Boid>, s: Settings, w: World, draws: seq<PerchDraws>, deltaTime: real, n: nat)
    requires n <= |flock| && |draws| == |flock|
    requires forall k | 0 <= k < |draws| :: IsPerchDraws(draws[k])
    ensures var r := Fold(flock, FrameStep(s, w, draws, deltaTime), n);
      forall j | 0 <= j < n ::
        (r[j].IsPerching ==> r[j].Velocity == Zero)
        && (!flock[j].IsPerching && flock[j].Position.y < w.height - Margin ==> !r[j].IsPerching)
        && r[j].Position.Subtract(flock[j].Position) == r[j].Velocity.Times(deltaTime / 1000.0)
  {
    var step := FrameStep(s, w, draws, deltaTime);
    var r := Fold(flock, step, n);
    forall j | 0 <= j < n
      ensures (r[j].IsPerching ==> r[j].Velocity == Zero)
        && (!flock[j].IsPerching && flock[j].Position.y < w.height - Margin ==> !r[j].IsPerching)
        && r[j].Position.Subtract(flock[j].Position) == r[j].Velocity.Times(deltaTime / 1000.0)
    {
      FoldStepsAgainstUpdatedPrefix(flock, step, j, n);
      var before := Fold(flock, step, j);
      assert before[j] == flock[j];
      var stepped := StepBoid(before, j, s, w, draws[j], deltaTime);
      assert r[j] == stepped;
    }
  }

  /** The reading order of a frame: boid `k` is stepped against the flock in
      which boids `0 .. k-1` already hold their new state and boids `k ..`
      still hold the old one. */
  lemma AdvanceStepsAgainstUpdatedPrefix(
    flock: seq<Boid>, s: Settings, w: World, draws: seq<PerchDraws>, deltaTime: real, k: nat, n: nat)
    requires k < n <= |flock| && |draws| == |flock|
    requires forall j | 0 <= j < |draws| :: IsPerchDraws(draws[j])
    ensures Advance(flock, s, w, draws, deltaTime, n)[k]
      == StepBoid(Advance(flock, s, w, draws, deltaTime, k), k, s, w, draws[k], deltaTime)
  {
    FoldStepsAgainstUpdatedPrefix(flock, FrameStep(s, w, draws, deltaTime), k, n);
  }

  /** `UpdateBoids`: steps every boid in list order, one set of draws per boid.
      Afterwards the list has the same length, every perching boid is at
      rest, a boid that was flying above the ground band is still flying, and
      every boid has moved by its final velocity times `deltaTime / 1000`. */
  function UpdateBoids(flock: seq<Boid>, s: Settings, w: World, draws: seq<PerchDraws>, deltaTime: real): (r: seq<Boid>)
    requires |draws| == |flock|
    requires forall k | 0 <= k < |draws| :: IsPerchDraws(draws[k])
    ensures |r| == |flock|
    ensures forall j | 0 <= j < |r| :: r[j].IsPerching ==> r[j].Velocity == Zero
    ensures forall j | 0 <= j < |r| ::
      !flock[j].IsPerching && flock[j].Position.y < w.height - Margin ==> !r[j].IsPerching
    ensures forall j | 0 <= j < |r| ::
      r[j].Position.Subtract(flock[j].Position) == r[j].Velocity.Times(deltaTime / 1000.0)
  {
    Advance(flock, s, w, draws, deltaTime, |flock|)
  }
}

=== FILE: vec3.dfy ===
/** The `vec3` value type of the simulation: a three-component vector over the
    reals with component-wise arithmetic, dot and cross products, scaling and
    squared norms. Every operation returns a new value; the square-root based
    `Distance` and `Magnitude` are replaced by their squared forms. */
module Vectors {
  import opened RealArith

  datatype Vec3 = Vec3(x: real, y: real, z: real) {

    /** Vector addition; undone by subtracting the same vector. */
    function Add(other: Vec3): (r: Vec3)
      ensures r.Subtract(other) == this
    {
      Vec3(x + other.x, y + other.y, z + other.z)
    }

    /** Adding a number adds it to every component. */
    function AddScalar(s: real): (r: Vec3)
      ensures r == Add(Splat(s))
    {
      Vec3(x + s, y + s, z + s)
    }

    /** Vector subtraction. */
    function Subtract(other: Vec3): (r: Vec3)
      ensures other.x + r.x == x && other.y + r.y == y && other.z + r.z == z
    {
      Vec3(x - other.x, y - other.y, z - other.z)
    }

    /** Subtracting a number subtracts it from every component. */
    function SubtractScalar(s: real): (r: Vec3)
      ensures r == Subtract(Splat(s))
    {
      Vec3(x - s, y - s, z - s)
    }

    /** Dot product: never negative for a vector with itself, and zero when
        either operand is the zero vector. */
    function Dot(other: Vec3): (p: real)
      ensures other == this ==> p >= 0.0
      ensures other == Zero || this == Zero ==> p == 0.0
    {
      SumOfSquaresNonNegative(x, y, z);
      x * other.x + y * other.y + z * other.z
    }

    /** The cross product is orthogonal to both operands. */
    function Cross(other: Vec3): (r: Vec3)
      ensures Dot(r) == 0.0 && other.Dot(r) == 0.0
    {
      Vec3(y * other.z - z * other.y, z * other.x - x * other.z, x * other.y - y * other.x)
    }

    /** Scaling by a number; by zero it gives the zero vector, by one the vector itself. */
    function Times(k: real): (r: Vec3)
      ensures k == 0.0 ==> r == Zero
      ensures k == 1.0 ==> r == this
    {
      Vec3(x * k, y * k, z * k)
    }

    /** Squared Euclidean distance: the squared magnitude of the difference. */
    function SquareDistance(other: Vec3): (d: real)
      ensures d >= 0.0
      ensures d == Subtract(other).SquareMagnitude()
    {
      var dx, dy, dz := x - other.x, y - other.y, z - other.z;
      SumOfSquaresNonNegative(dx, dy, dz);
      dx * dx + dy * dy + dz * dz
    }

    /** Squared magnitude: the dot product with itself, never negative. */
    function SquareMagnitude(): (m: real)
      ensures m >= 0.0
      ensures m == Dot(this)
    {
      SumOfSquaresNonNegative(x, y, z);
      x * x + y * y + z * z
    }
  }

  /** The shared zero vector `vec3.Zero`. */
  const Zero: Vec3 := Vec3(0.0, 0.0, 0.0)

  /** The vector a scalar operand is broadcast to. */
  function Splat(s: real): Vec3
  {
    Vec3(s, s, s)
  }

  /** `m` is the (non-negative) Euclidean magnitude of `v`, the value `Magnitude()`
      computes with a square root. */
  ghost predicate IsMagnitude(v: Vec3, m: real)
  {
    m >= 0.0 && m * m == v.SquareMagnitude()
  }

  /** Scaling by `k` scales the squared magnitude by `k * k`. */
  lemma TimesScalesSquareMagnitude(v: Vec3, k: real)
    ensures v.Times(k).SquareMagnitude() == k * k * v.SquareMagnitude()
  {
  }

  /** Scaling by a factor in [-1, 1] never increases the squared magnitude. */
  lemma TimesShrinksSquareMagnitude(v: Vec3, k: real)
    ensures -1.0 <= k <= 1.0 ==> v.Times(k).SquareMagnitude() <= v.SquareMagnitude()
  {
    TimesScalesSquareMagnitude(v, k);
    SquareFactorShrinks(k, v.SquareMagnitude());
  }

  /** Scaling distributes over vector addition. */
  lemma TimesDistributes(a: Vec3, b: Vec3, k: real)
    ensures a.Add(b).Times(k) == a.Times(k).Add(b.Times(k))
  {
  }

  /** Scaling one operand of a dot product scales the product: the factor's
      sign is kept. */
  lemma TimesDot(v: Vec3, w: Vec3, k: real)
    ensures v.Times(k).Dot(w) == k * v.Dot(w)
  {
    ScaleProduct(v.x, w.x, k);
    ScaleProduct(v.y, w.y, k);
    ScaleProduct(v.z, w.z, k);
  }

  /** The dot product distributes over vector addition. */
  lemma DotAdd(a: Vec3, b: Vec3, w: Vec3)
    ensures a.Add(b).Dot(w) == a.Dot(w) + b.Dot(w)
  {
  }

  /** The dot product is determined by squared magnitudes: twice `a . b` is
      `|a + b|^2 - |a|^2 - |b|^2`. */
  lemma DotPolarization(a: Vec3, b: Vec3)
    ensures 2.0 * a.Dot(b) == a.Add(b).SquareMagnitude() - a.SquareMagnitude() - b.SquareMagnitude()
  {
    SquareOfSum(a.x, b.x);
    SquareOfSum(a.y, b.y);
    SquareOfSum(a.z, b.z);
  }

  lemma SquareDistanceSymmetric(a: Vec3, b: Vec3)
    ensures a.SquareDistance(b) == b.SquareDistance(a)
  {
  }

  lemma DotSymmetric(a: Vec3, b: Vec3)
    ensures a.Dot(b) == b.Dot(a)
  {
  }

  lemma ZeroIsAdditiveIdentity(v: Vec3)
    ensures v.Add(Zero) == v && Zero.Add(v) == v
  {
  }

  /** Lagrange's identity: the cross product's length is fixed by the
      operands' lengths and their dot product. */
  lemma CrossLagrange(a: Vec3, b: Vec3)
    ensures a.Cross(b).SquareMagnitude()
      == a.SquareMagnitude() * b.SquareMagnitude() - a.Dot(b) * a.Dot(b)
  {
  }

  /** The cross product is right-handed: x cross y is z. */
  lemma CrossOrientation()
    ensures Vec3(1.0, 0.0, 0.0).Cross(Vec3(0.0, 1.0, 0.0)) == Vec3(0.0, 0.0, 1.0)
  {
  }
}
